=== FILE: README.md ===
# ExamFlow service worker — decision core in Dafny

ExamFlow's service worker (`sw.js`) caches the app's assets for offline use
and sends local exam reminders. This project models the decisions inside it
as pure functions over abstract state:

- days are whole-day numbers aligned to midnight;
- a start string is turned into a day by a parameter `dayOf`, which gives
  None when the string is not a date;
- caches are maps from URL to response;
- the reminders a run sends are returned as a sequence of notifications.

Modules:

- `Lifecycle` (`lifecycle.dfy`): the cache version name, the asset list and
  the `activate` clean-up.
- `Fetch` (`fetch.dfy`): the `fetch` handler. It passes non-http requests
  through, answers hits from the cache, stores cacheable network responses,
  and falls back to the shell page when offline.
- `Notify` (`notify.dfy`): the five-language phrase table's keys,
  `getNotificationTag`, and the template and tag choice of
  `sendNotificationSW`.
- `Scheduler` (`scheduler.dfy`): `checkAndSendNotificationsSW`. It covers the
  permission gate, the daily ledger reset, the alert-day test, at most one
  reminder per key per day, and the ledger written back.
- `Colors` (`colors.dfy`): subject colours assigned in first-seen order.
  The colour map is a plain object, so a subject named like a property
  every object inherits (`toString`, `constructor`, `__proto__`, ...)
  already reads as coloured: it gets no entry and is not counted.
- `Messages` (`messages.dfy`): the worker's in-memory state, the `message`
  handler that replaces it, and the timer callback.
- `Strings`, `Wrappers`: decimal rendering of numbers, prefix tests, Option.

Points where the code's behaviour is easy to misread:

- The ledger is written back only from the branch that sends a reminder. The
  write serializes the ledger in a later callback, so it stores the final
  in-memory ledger. A run that sends nothing leaves the stored entry as it
  was, even when the in-memory ledger was reset for a new day (`Check`).
- A ledger key counts as sent only when present and true (`Sent`).
- The OS tag of a notification uses an empty start (`title--D<diff>`), so it
  differs from the ledger key (`title-start-D<diff>`).
- A request's URL is always absolute. So the offline fallback can only be
  triggered through the four absolute CDN entries of the asset list, never
  through the relative ones (`Fetch.FallbackOnlyForAbsoluteAssets`).
- A failure to parse the stored ledger is not caught in the code; it ends the
  run. The model's stored ledger is `Option<Ledger>`, where None stands for
  an absent entry or `{}`.

## Model

| member | source | states |
|---|---|---|
| Lifecycle.StaleCaches | sw.js:66-75 | activation deletes exactly the cache names different from the current version, each as often as it is listed, and never the current one |
| Lifecycle.ActivateKeepsOnlyCurrent | sw.js:66-75 | after activation at most the current cache survives, and it survives exactly when it existed |
| Lifecycle.ActivateIdempotent | sw.js:66-75 | activating again over the survivors deletes nothing |
| Fetch.Lookup | sw.js:91-96 | a GET whose URL is cached is found with that response; nothing else is found |
| Fetch.HandleFetch | sw.js:84-123 | non-http URLs pass through; a hit is answered verbatim without the network; a miss asks the network; a delivered response is returned and stored iff status 200, type basic and method GET; offline, the shell page is served only for listed URLs and only when cached, otherwise a network error |
| Fetch.RefetchServedFromCache | sw.js:94-109 | after a cacheable GET response is stored, the same request is answered from the cache with that response and no network call |
| Fetch.FetchOnlyAddsEntries | sw.js:94-109 | the handler never removes or replaces a cached response |
| Fetch.FallbackOnlyForAbsoluteAssets | sw.js:117-119 | an intercepted URL reaches the fallback only through an absolute entry of the asset list |
| Notify.ParseLang | sw.js:24-45 | a code the phrase table accepts names the language whose key it is |
| Notify.ParseLangRoundTrip | sw.js:24-45 | each of the five languages is found again from its table key |
| Notify.NotificationTag | sw.js:173-175 | the tag is title, start and rendered offset joined by "-", "-D" |
| Notify.TagDeterminesDiff | sw.js:173-175 | equal keys with non-negative offsets have the same offset and the same title-start part |
| Notify.KeyAmbiguity | sw.js:173-175 | the key does not separate title from start: title "a-b" with start "c" and title "a" with start "b-c" give the same key |
| Notify.TagIgnoresStart | sw.js:173-186 | two exams with the same title and offset but different starts get different ledger keys and the same OS tag |
| Notify.MakeNotification | sw.js:178-194 | the "today" template iff the offset is 0, otherwise the "upcoming" template with the offset; title, icon, data payload and the start-less tag |
| Strings.NatToStringRoundTrip | sw.js:174 | the decimal rendering of an offset can be read back to the same number |
| Scheduler.EvaluateSound | sw.js:219-231 | every reminder of a pass comes from a listed exam at a qualifying offset whose key was not yet sent |
| Scheduler.EvaluateDistinct | sw.js:227-234 | no key fires twice in one pass, because firing marks the key before the next exam |
| Scheduler.EvaluateLedger | sw.js:229-234 | a pass adds exactly the fired keys to the ledger, all true, and changes no other entry |
| Scheduler.EvaluateComplete | sw.js:223-234 | after a pass every exam due today has its key marked sent |
| Scheduler.NothingDueFiresNothing | sw.js:226-231 | a ledger that already covers every due exam makes the pass send nothing |
| Scheduler.Check | sw.js:197-242 | without permission nothing is sent and the stored ledger is untouched; a run that sends something leaves a ledger dated today, a run that sends nothing leaves the stored ledger as it was |
| Scheduler.CheckNotificationShape | sw.js:179-186 | each shown notification uses the "today" template iff its offset is 0, the "upcoming" one with the offset otherwise, in the run's language, with the start-less tag |
| Scheduler.CheckFiresOnlyDue | sw.js:223-229 | a reminder is sent only for a listed exam starting 7, 5, 3, 1 or 0 days ahead whose key today's ledger does not hold |
| Scheduler.CheckOncePerKey | sw.js:227-234 | in one run two reminders never share title and start, so duplicate exams notify once |
| Scheduler.CheckRecordsSent | sw.js:213-238 | after sending, the stored ledger is dated today and holds the same-day prior keys plus exactly the sent keys, marked true |
| Scheduler.CheckFiresEveryUnsentDue | sw.js:226-231 | with permission, every listed exam due today whose key today's ledger does not hold as sent has its key sent in the run, by the first listed exam with that key |
| Scheduler.CheckNewDay | sw.js:212-216 | a ledger from another day suppresses nothing: the run sends what it would send with no ledger stored |
| Scheduler.CheckNewDayFiresDue | sw.js:212-231 | on a new day every listed exam due today has its key sent in the run, by the first listed exam with that key |
| Scheduler.CheckIdempotent | sw.js:227-238 | a second run on the same day with the same exams sends nothing and leaves the stored ledger as it was |
| Scheduler.DueExamNotifiedOncePerDay | sw.js:219-239 | an exam due n days ahead, n an alert day, whose key today's ledger does not hold as sent, is announced exactly once over three runs that day |
| Scheduler.KeyOncePerDayAcrossLists | sw.js:213-238 | a key sent by one run is not sent by a later run the same day, whatever exam list, language or permission that run has |
| Scheduler.CheckLedgerGrows | sw.js:213-238 | a key today's ledger holds as sent is still held as sent after any run that day |
| Colors.ColorOrder | sw.js:136-140 | the coloured subjects are exactly the listed subjects that are not inherited object property names, each once |
| Colors.AssignColors | sw.js:135-140 | every listed subject except the inherited object property names, and nothing else, gets a non-empty colour; the map has one entry per coloured subject |
| Colors.ColorsByRank | sw.js:136-139 | the k-th coloured subject in first-seen order gets the palette entry at k modulo the palette length |
| Colors.ColorsByFirstOccurrence | sw.js:136-139 | a colourable subject first seen at position i gets the palette entry at the number of distinct colourable subjects before i, modulo the palette length |
| Colors.ColorsStable | sw.js:137-138 | colouring more subjects never changes a colour already given |
| Messages.LangCodeOf | sw.js:130 | an absent or empty language code becomes "ko"; any other code is kept |
| Messages.DecodedLanguage | sw.js:130 | a message without a language code decodes to Korean; otherwise the code is looked up in the phrase table |
| Messages.HandleMessage | sw.js:126-145 | a schedule message replaces exams, language (decoded from its code, default Korean) and palette, colours exactly the listed subjects that are not inherited object property names, with the colours of the first-seen palette assignment, and runs the check once; other messages change nothing |
| Messages.Tick | sw.js:247 | the timer's run sends nothing and keeps the ledger without permission |
| Messages.TickAfterScheduleSendsNothing | sw.js:227-238 | after a schedule message's run, a timer run the same day sends nothing more |

## Left out

- Install (sw.js:49-60): pre-caching the asset list with `cache.addAll` and `skipWaiting`. It is browser I/O with no decision in it.
- Notification click (sw.js:148-166): closing the notification and focusing or opening a window. It is browser I/O.
- The timer itself (sw.js:247): only its callback (`Messages.Tick`) is modelled, not the five-minute schedule.
- Concurrency: the cache writes are fire-and-forget, and the ledger's read-modify-write is not guarded against a timer run overlapping a message run. The model performs each run and each write atomically, in one step.
- Dates: `new Date`, `setHours`, `toISOString` and `Math.ceil` over milliseconds are replaced by integer day numbers (`dayOf`, `today`). Time zones and daylight-saving shifts, which can move the computed offset by one day, are not modelled.
- JSON: the ledger is a datatype, not a serialized blob. A stored entry that fails to parse, or one dated today without an `exams` field, would end the run with an exception; the model does not represent such entries.
- Messages.HandleMessage: requires the language code to be one of the five the phrase table has. With another code the table lookup in `sendNotificationSW` throws inside an async call whose rejection nobody observes: nothing would be shown, yet the key would still be marked sent. The model does not represent that run.
- Empty or falsy palettes: `Colors.AssignColors` and `Messages.HandleMessage` require a non-empty palette of non-empty strings whenever there are exams. An empty palette gives a NaN index, and an empty colour string is re-assigned on the subject's next occurrence.
- The phrase texts of the table and all `console` logging: only the choice of template is modelled.
- Cache lookup details: `caches.match` searches every cache of the origin, varies on headers, and resolves relative URLs. The model looks up one map by the URL string as written. It keeps the Cache API rule that a non-GET request never matches. Response cloning is not modelled.
- Fetch.FetchOnlyAddsEntries: states only that existing entries survive, not which entry is added; `Fetch.HandleFetch` states the addition.
- Messages.Tick: its own contract covers only the missing-permission case; its behaviour is that of `Scheduler.Check`, and `Messages.TickAfterScheduleSendsNothing` states the same-day case.

=== FILE: colors.dfy ===
/** Subject colours, as the message handler assigns them: subjects in
    first-seen order take palette entries in turn, wrapping around. The
    colour map is a plain object, so a subject named like an inherited
    property of every object already reads as coloured: it is skipped and
    not counted. */
module Colors {

  /** A palette the assignment can use: non-empty (the index is taken modulo
      its length) with non-empty entries (a subject whose colour is the empty
      string counts as uncoloured and would be coloured again). */
  predicate ValidPalette(palette: seq<string>)
  {
    |palette| > 0 && forall i :: 0 <= i < |palette| ==> palette[i] != ""
  }

  /** The properties every object inherits; each has a truthy value, so a
      lookup `colors[name]` never finds such a name uncoloured. */
  const ProtoNames: set<string> := {
    "constructor", "hasOwnProperty", "isPrototypeOf", "propertyIsEnumerable",
    "toLocaleString", "toString", "valueOf", "__proto__",
    "__defineGetter__", "__defineSetter__", "__lookupGetter__", "__lookupSetter__"
  }

  /** The subjects that receive a colour, each once, in the order they are
      first seen. */
  function ColorOrder(subjects: seq<string>): (d: seq<string>)
    ensures forall x :: x in d <==> x in subjects && x !in ProtoNames
    ensures forall i, j :: 0 <= i < j < |d| ==> d[i] != d[j]
  {
    if |subjects| == 0 then []
    else
      var d := ColorOrder(subjects[..|subjects| - 1]);
      var x := subjects[|subjects| - 1];
      assert forall y :: y in subjects <==> y in subjects[..|subjects| - 1] || y == x;
      if x in ProtoNames || x in d then d else d + [x]
  }

  /** The colour map built by the handler's loop: a subject that reads as
      uncoloured gets `palette[n % |palette|]`, where n is the number of
      entries already in the map. */
  function AssignColors(subjects: seq<string>, palette: seq<string>): (colors: map<string, string>)
    requires ValidPalette(palette)
    ensures forall x :: x in colors <==> x in subjects && x !in ProtoNames
    ensures |colors| == |ColorOrder(subjects)|
    ensures forall x :: x in colors ==> colors[x] != ""
  {
    if |subjects| == 0 then map[]
    else
      var prefix := subjects[..|subjects| - 1];
      var colors := AssignColors(prefix, palette);
      var x := subjects[|subjects| - 1];
      assert subjects == prefix + [x];
      if x in ProtoNames || (x in colors && colors[x] != "") then colors
      else
        var c := palette[|colors| % |palette|];
        assert ColorOrder(subjects) == ColorOrder(prefix) + [x];
        assert colors[x := c].Keys == colors.Keys + {x};
        colors[x := c]
  }

  /** The k-th coloured subject, in first-seen order, is coloured
      `palette[k % |palette|]`. */
  lemma {:induction false} ColorsByRank(subjects: seq<string>, palette: seq<string>)
    requires ValidPalette(palette)
    ensures var colors := AssignColors(subjects, palette);
      var d := ColorOrder(subjects);
      forall k :: 0 <= k < |d| ==> d[k] in colors && colors[d[k]] == palette[k % |palette|]
  {
    if |subjects| > 0 {
      var prefix := subjects[..|subjects| - 1];
      var x := subjects[|subjects| - 1];
      ColorsByRank(prefix, palette);
      var before := AssignColors(prefix, palette);
      var d := ColorOrder(prefix);
      var colors := AssignColors(subjects, palette);
      if x in ProtoNames || (x in before && before[x] != "") {
        assert colors == before;
        assert ColorOrder(subjects) == d;
      } else {
        assert ColorOrder(subjects) == d + [x];
        forall k | 0 <= k < |d| + 1
          ensures (d + [x])[k] in colors && colors[(d + [x])[k]] == palette[k % |palette|]
        {
          if k < |d| {
            assert (d + [x])[k] == d[k] != x;
          }
        }
      }
    }
  }

  /** A subject keeps the colour it was first given: colouring more subjects
      never changes an existing entry. */
  lemma {:induction false} ColorsStable(subjects: seq<string>, n: nat, palette: seq<string>)
    requires ValidPalette(palette)
    requires n <= |subjects|
    ensures var before := AssignColors(subjects[..n], palette);
      var after := AssignColors(subjects, palette);
      forall x :: x in before ==> x in after && after[x] == before[x]
    decreases |subjects| - n
  {
    if n < |subjects| {
      ColorsStable(subjects, n + 1, palette);
      assert subjects[..n + 1][..n] == subjects[..n];
    } else {
      assert subjects[..n] == subjects;
    }
  }

  /** The colour of a subject at its first occurrence i is the palette entry
      indexed by the number of distinct colourable subjects before i, modulo
      the palette length. */
  lemma ColorsByFirstOccurrence(subjects: seq<string>, i: nat, palette: seq<string>)
    requires ValidPalette(palette)
    requires i < |subjects|
    requires subjects[i] !in subjects[..i] && subjects[i] !in ProtoNames
    ensures var seen := set x | x in subjects[..i] && x !in ProtoNames;
      var colors := AssignColors(subjects, palette);
      subjects[i] in colors && colors[subjects[i]] == palette[|seen| % |palette|]
  {
    var x := subjects[i];
    var before := AssignColors(subjects[..i], palette);
    var seen := set y | y in subjects[..i] && y !in ProtoNames;
    assert before.Keys == seen;
    assert subjects[..i + 1][..i] == subjects[..i];
    assert subjects[..i + 1][i] == x;
    ColorsStable(subjects, i + 1, palette);
  }
}

=== FILE: fetch.dfy ===
/** The `fetch` handler's decisions: which requests it intercepts, when it
    answers from the cache, when it stores a network response, and when it
    falls back to the cached shell page. Caches are maps from request URL to
    response; the cache write happens in the same step. */
module Fetch {
  import opened Wrappers
  import opened Strings
  import opened Lifecycle

  /** `Response.type` */
  datatype ResponseType = Basic | Cors | Default | Error | Opaque | OpaqueRedirect

  datatype Response = Response(status: int, kind: ResponseType, body: string)

  datatype Request = Request(url: string, httpMethod: string)

  /** What the network does with a request: a response, or a rejection
      (offline, DNS failure, ...). */
  datatype Network = Delivered(response: Response) | Unreachable

  /** How the handler answers: not at all (the browser handles the request
      itself), with a response, or with a network error. */
  datatype Reply = PassThrough | Respond(response: Response) | NetworkError

  /** The reply, the current cache afterwards, and whether the network was
      asked. */
  datatype FetchResult = FetchResult(reply: Reply, cache: map<string, Response>, usedNetwork: bool)

  /** The shell page served when offline. */
  const ShellPage: string := "./index.html"

  /** Only URLs starting with "http" are intercepted. */
  predicate Intercepted(req: Request)
  {
    StartsWith(req.url, "http")
  }

  /** `caches.match(request)`: a stored response for the URL; a request whose
      method is not GET never matches. */
  function Lookup(cache: map<string, Response>, req: Request): (r: Option<Response>)
    ensures r.Some? <==> req.httpMethod == "GET" && req.url in cache
    ensures r.Some? ==> r.value == cache[req.url]
  {
    if req.httpMethod == "GET" && req.url in cache then Some(cache[req.url]) else None
  }

  /** A network response is stored only when it is a 200, of type basic,
      answering a GET. */
  predicate Cacheable(req: Request, resp: Response)
  {
    resp.status == 200 && resp.kind == Basic && req.httpMethod == "GET"
  }

  /** The offline fallback applies when the URL, or the URL with a slash
      appended, is listed in the asset list. */
  predicate FallbackApplies(url: string)
  {
    url in StaticAssets || url + "/" in StaticAssets
  }

  /** The `fetch` handler. */
  function HandleFetch(req: Request, cache: map<string, Response>, net: Network): (r: FetchResult)
    // non-http requests are left alone
    ensures r.reply.PassThrough? <==> !Intercepted(req)
    // a hit is answered verbatim, without the network and without touching the cache
    ensures Intercepted(req) && Lookup(cache, req).Some? ==>
      r == FetchResult(Respond(Lookup(cache, req).value), cache, false)
    // the network is asked exactly on an intercepted miss
    ensures r.usedNetwork <==> Intercepted(req) && Lookup(cache, req).None?
    // a delivered response is returned as is, and stored exactly when cacheable
    ensures r.usedNetwork && net.Delivered? ==>
      && r.reply == Respond(net.response)
      && r.cache == (if Cacheable(req, net.response) then cache[req.url := net.response] else cache)
    // the cache changes only by storing a cacheable network response under the request's URL
    ensures r.cache != cache ==>
      r.usedNetwork && net.Delivered? && Cacheable(req, net.response) && r.cache == cache[req.url := net.response]
    // offline, the shell page is served only for listed URLs, and only if it is cached
    ensures r.usedNetwork && net.Unreachable? ==>
      && r.cache == cache
      && (r.reply.Respond? <==> FallbackApplies(req.url) && ShellPage in cache)
      && (r.reply.Respond? ==> r.reply.response == cache[ShellPage])
  {
    if !Intercepted(req) then FetchResult(PassThrough, cache, false)
    else
      match Lookup(cache, req)
      case Some(hit) => FetchResult(Respond(hit), cache, false)
      case None =>
        match net
        case Delivered(resp) =>
          if Cacheable(req, resp) then FetchResult(Respond(resp), cache[req.url := resp], true)
          else FetchResult(Respond(resp), cache, true)
        case Unreachable =>
          if FallbackApplies(req.url) then
            match Lookup(cache, Request(ShellPage, "GET"))
            case Some(shell) => FetchResult(Respond(shell), cache, true)
            case None => FetchResult(NetworkError, cache, true)
          else FetchResult(NetworkError, cache, true)
  }

  /** Once a GET has been answered with a cacheable network response, the
      same request is answered from the cache with that response and no
      network call, whatever the network would do. */
  lemma RefetchServedFromCache(req: Request, cache: map<string, Response>, net1: Network, net2: Network)
    requires Intercepted(req) && Lookup(cache, req).None?
    requires net1.Delivered? && Cacheable(req, net1.response)
    ensures var r1 := HandleFetch(req, cache, net1);
      HandleFetch(req, r1.cache, net2) == FetchResult(Respond(net1.response), r1.cache, false)
  {
  }

  /** The handler never removes or replaces a cached response. */
  lemma FetchOnlyAddsEntries(req: Request, cache: map<string, Response>, net: Network)
    ensures var r := HandleFetch(req, cache, net);
      forall u :: u in cache ==> u in r.cache && r.cache[u] == cache[u]
  {
  }

  /** Request URLs reaching the fallback are absolute, so the relative entries
      of the asset list ("./", "./index.html", "/manifest.json", ...) never
      trigger it: only the absolute CDN entries can. */
  lemma FallbackOnlyForAbsoluteAssets(url: string)
    requires StartsWith(url, "http")
    requires FallbackApplies(url)
    ensures exists a :: a in StaticAssets && StartsWith(a, "http") && (a == url || a == url + "/")
  {

  }
}

=== FILE: lifecycle.dfy ===
/** The worker's cache version, its pre-cached asset list, and the clean-up the
    `activate` event performs on the cache storage. */
module Lifecycle {

  /** The versioned name of the one cache this deployment owns. */
  const CacheName: string := "examflow-cache-v1.0.1"

  /** The asset list, exactly as written (relative and absolute entries). */
  const StaticAssets: seq<string> := [
    "./",
    "./index.html",
    "./favicon.ico",
    "./icon-192x192.png",
    "./icon-512x512.png",
    "/manifest.json",
    "https://cdn.jsdelivr.net/npm/flatpickr/dist/flatpickr.min.css",
    "https://cdn.jsdelivr.net/npm/flatpickr/dist/themes/dark.css",
    "https://cdn.jsdelivr.net/npm/flatpickr",
    "https://cdn.jsdelivr.net/npm/flatpickr/dist/l10n/ko.js"
  ]

  /** The names, in enumeration order, of the caches `activate` deletes: every
      name other than the current version's. */
  function StaleCaches(names: seq<string>): (deleted: seq<string>)
    ensures forall x :: x in deleted <==> x in names && x != CacheName
    ensures forall x :: x != CacheName ==> multiset(deleted)[x] == multiset(names)[x]
    ensures multiset(deleted)[CacheName] == 0
  {
    if |names| == 0 then []
    else
      assert names == [names[0]] + names[1..];
      var rest := StaleCaches(names[1..]);
      if names[0] != CacheName then [names[0]] + rest else rest
  }

  /** The cache names that survive activation. */
  function Surviving(names: seq<string>): (kept: set<string>)
  {
    (set x | x in names) - (set x | x in StaleCaches(names))
  }

  /** After activation at most the current cache remains, and it is kept
      whenever it existed. */
  lemma ActivateKeepsOnlyCurrent(names: seq<string>)
    ensures Surviving(names) <= {CacheName}
    ensures CacheName in names <==> Surviving(names) == {CacheName}
  {

  }

  /** Activating a second time deletes nothing. */
  lemma ActivateIdempotent(names: seq<string>, again: seq<string>)
    requires forall x :: x in again <==> x in Surviving(names)
    ensures StaleCaches(again) == []
  {
    ActivateKeepsOnlyCurrent(names);
    var d := StaleCaches(again);
    forall x
      ensures multiset(d)[x] == 0
    {
      if x != CacheName {
        assert x !in again;
      }
    }
    assert multiset(d) == multiset{};
  }
}

=== FILE: messages.dfy ===
/** The worker's in-memory scheduling state, the `message` handler that
    replaces it, and the timer callback that re-runs the check on it. */
module Messages {
  import opened Wrappers
  import opened Notify
  import opened Scheduler
  import opened Colors

  /** The one message type the handler reacts to. */
  const ScheduleType: string := "SCHEDULE_NOTIFICATIONS"

  /** A message's data; absent fields are None. */
  datatype MessageData = MessageData(
    kind: string,
    exams: Option<seq<Exam>>,
    lang: Option<string>,
    palette: Option<seq<string>>)

  /** `currentExams`, `currentLang`, `currentPalette`, `currentColors`. */
  datatype WorkerState = WorkerState(
    exams: seq<Exam>,
    lang: Lang,
    palette: seq<string>,
    colors: map<string, string>)

  predicate IsSchedule(data: Option<MessageData>)
  {
    data.Some? && data.value.kind == ScheduleType
  }

  /** `event.data.lang || 'ko'`: an absent or empty code means Korean. */
  function LangCodeOf(data: MessageData): (code: string)
    ensures code != ""
    ensures data.lang.None? || data.lang.value == "" ==> code == "ko"
    ensures data.lang.Some? && data.lang.value != "" ==> code == data.lang.value
  {
    match data.lang
    case None => "ko"
    case Some(c) => if c == "" then "ko" else c
  }

  function Subjects(exams: seq<Exam>): (subjects: seq<string>)
    ensures |subjects| == |exams|
    ensures forall i :: 0 <= i < |exams| ==> subjects[i] == exams[i].subject
  {
    seq(|exams|, i requires 0 <= i < |exams| => exams[i].subject)
  }

  /** The decoded language of a message: Korean when no code is given, and
      otherwise the language the phrase table lists under the code. */
  lemma DecodedLanguage(data: MessageData)
    ensures data.lang.None? || data.lang.value == "" ==> ParseLang(LangCodeOf(data)) == Some(Ko)
    ensures data.lang.Some? && data.lang.value != "" ==> ParseLang(LangCodeOf(data)) == ParseLang(data.lang.value)
  {
  }

  /** The `message` handler. A schedule message replaces the exams, language
      (default Korean) and palette, recolours the subjects from scratch, and
      runs the reminder check once on the new state; any other message is
      ignored. The language code must be one the phrase table has, and the
      palette must be usable whenever there are exams to colour. */
  function HandleMessage(s: WorkerState, data: Option<MessageData>, perm: Permission, today: int,
                         stored: Option<Ledger>, dayOf: string -> Option<int>): (r: (WorkerState, Outcome))
    requires IsSchedule(data) ==> ParseLang(LangCodeOf(data.value)).Some?
    requires IsSchedule(data) && data.value.exams.GetOr([]) != [] ==> ValidPalette(data.value.palette.GetOr([]))
    ensures !IsSchedule(data) ==> r.0 == s && r.1.shown == [] && r.1.stored == stored
    ensures IsSchedule(data) ==>
      && r.0.exams == data.value.exams.GetOr([])
      && LangCode(r.0.lang) == LangCodeOf(data.value)
      && (data.value.lang.None? || data.value.lang.value == "" ==> r.0.lang == Ko)
      && r.0.palette == data.value.palette.GetOr([])
      && (forall x :: x in r.0.colors <==>
            x !in ProtoNames && exists i :: 0 <= i < |r.0.exams| && r.0.exams[i].subject == x)
      && (r.0.exams != [] ==> r.0.colors == AssignColors(Subjects(r.0.exams), r.0.palette))
      && r.1 == Check(perm, today, stored, r.0.exams, dayOf, r.0.lang)
  {
    if !IsSchedule(data) then (s, Outcome([], [], stored))
    else
      var exams := data.value.exams.GetOr([]);
      var lang := ParseLang(LangCodeOf(data.value)).value;
      var palette := data.value.palette.GetOr([]);
      var subjects := Subjects(exams);
      var colors := if exams == [] then map[] else AssignColors(subjects, palette);
      assert forall x :: x in subjects <==> exists i :: 0 <= i < |exams| && exams[i].subject == x by {
        forall x | x in subjects
          ensures exists i :: 0 <= i < |exams| && exams[i].subject == x
        {
          var i :| 0 <= i < |subjects| && subjects[i] == x;
          assert exams[i].subject == x;
        }
      }
      var next := WorkerState(exams, lang, palette, colors);
      (next, Check(perm, today, stored, exams, dayOf, lang))
  }

  /** The five-minute timer's callback: the check on the state in memory. */
  function Tick(s: WorkerState, perm: Permission, today: int, stored: Option<Ledger>,
                dayOf: string -> Option<int>): (r: Outcome)
    ensures perm != Granted ==> r.shown == [] && r.stored == stored
  {
    Check(perm, today, stored, s.exams, dayOf, s.lang)
  }

  /** Once a schedule message has been handled, timer runs later the same
      day send nothing more and leave the stored ledger alone. */
  lemma TickAfterScheduleSendsNothing(s: WorkerState, data: Option<MessageData>, perm: Permission, today: int,
                                      stored: Option<Ledger>, dayOf: string -> Option<int>)
    requires IsSchedule(data)
    requires ParseLang(LangCodeOf(data.value)).Some?
    requires data.value.exams.GetOr([]) != [] ==> ValidPalette(data.value.palette.GetOr([]))
    ensures var r := HandleMessage(s, data, perm, today, stored, dayOf);
      var t := Tick(r.0, perm, today, r.1.stored, dayOf);
      t.shown == [] && t.stored == r.1.stored
  {
    var r := HandleMessage(s, data, perm, today, stored, dayOf);
    CheckIdempotent(perm, today, stored, r.0.exams, dayOf, r.0.lang);
  }
}

=== FILE: notify.dfy ===
/** What one reminder looks like: the notification tag, the language table's
    template choice and the notification payload. */
module Notify {
  import opened Wrappers
  import opened Strings

  /** The five languages of the worker's phrase table. */
  datatype Lang = Ko | En | Jp | Cn | Es

  /** The key under which each language appears in the phrase table. */
  function LangCode(l: Lang): (code: string)
  {
    match l
    case Ko => "ko"
    case En => "en"
    case Jp => "jp"
    case Cn => "cn"
    case Es => "es"
  }

  /** Looks a language code up in the phrase table; None for a code the table
      does not have. */
  function ParseLang(code: string): (r: Option<Lang>)
    ensures r.Some? ==> LangCode(r.value) == code
  {
    if code == "ko" then Some(Ko)
    else if code == "en" then Some(En)
    else if code == "jp" then Some(Jp)
    else if code == "cn" then Some(Cn)
    else if code == "es" then Some(Es)
    else None
  }

  /** Every language's code finds that language again. */
  lemma ParseLangRoundTrip(l: Lang)
    ensures ParseLang(LangCode(l)) == Some(l)
  {
  }

  /** `getNotificationTag`: `${title}-${start}-D${diffDays}`. With the exam's
      start it is the ledger key; with an empty start it is the OS tag. */
  function NotificationTag(title: string, start: string, diffDays: int): (tag: string)
    ensures |tag| == |title| + |start| + 3 + |IntToString(diffDays)|
  {
    title + "-" + start + "-D" + IntToString(diffDays)
  }

  /** A key for a non-negative offset ends in exactly the offset's digits, so
      two keys that are equal carry the same offset and the same title/start
      part. */
  lemma {:induction false} TagDeterminesDiff(t1: string, s1: string, d1: nat, t2: string, s2: string, d2: nat)
    requires NotificationTag(t1, s1, d1) == NotificationTag(t2, s2, d2)
    ensures d1 == d2
    ensures t1 + "-" + s1 == t2 + "-" + s2
  {
    var k := NotificationTag(t1, s1, d1);
    var n1 := NatToString(d1);
    var n2 := NatToString(d2);
    var p1 := t1 + "-" + s1 + "-D";
    var p2 := t2 + "-" + s2 + "-D";
    assert k == p1 + n1 && k == p2 + n2;
    assert !IsDigit(k[|p1| - 1]) && !IsDigit(k[|p2| - 1]);
    assert forall i :: |p1| <= i < |k| ==> IsDigit(k[i]);
    assert forall i :: |p2| <= i < |k| ==> IsDigit(k[i]);
    assert |p1| == |p2|;
    assert n1 == k[|p1|..] == n2;
    NatToStringInjective(d1, d2);
    assert p1 == k[..|p1|] == p2;
    assert t1 + "-" + s1 == p1[..|p1| - 2];
    assert t2 + "-" + s2 == p2[..|p2| - 2];
  }

  /** The key does not separate titles from starts: a title containing `-`
      can collide with a different exam's key. */
  lemma KeyAmbiguity(d: int)
    ensures NotificationTag("a-b", "c", d) == NotificationTag("a", "b-c", d)
  {

  }

  /** The body template `sendNotificationSW` picks. */
  datatype Body =
    | TodayExam(lang: Lang, subject: string)
    | UpcomingExam(lang: Lang, subject: string, days: int)

  /** One shown notification: title, body, icon, OS grouping tag and the data
      payload `{examTitle, subject, diffDays}`. */
  datatype Notification = Notification(
    title: string,
    body: Body,
    icon: string,
    tag: string,
    examTitle: string,
    subject: string,
    diffDays: int)

  const Icon: string := "./icon-192x192.png"

  /** `sendNotificationSW(examTitle, subject, diffDays)` in language `lang`. */
  function MakeNotification(lang: Lang, examTitle: string, subject: string, diffDays: int): (n: Notification)
    ensures n.title == examTitle == n.examTitle
    ensures n.subject == subject == n.body.subject
    ensures n.diffDays == diffDays
    ensures n.body.lang == lang
    ensures n.body.TodayExam? <==> diffDays == 0
    ensures n.body.UpcomingExam? ==> n.body.days == diffDays
    ensures n.icon == Icon
    ensures n.tag == NotificationTag(examTitle, "", diffDays)
  {
    var body := if diffDays == 0 then TodayExam(lang, subject) else UpcomingExam(lang, subject, diffDays);
    Notification(examTitle, body, Icon, NotificationTag(examTitle, "", diffDays), examTitle, subject, diffDays)
  }

  /** Two exams with the same title and offset but different starts have
      different ledger keys, yet their notifications share one OS tag. */
  lemma TagIgnoresStart(lang: Lang, title: string, s1: string, s2: string, subj1: string, subj2: string, d: int)
    requires s1 != s2
    ensures NotificationTag(title, s1, d) != NotificationTag(title, s2, d)
    ensures MakeNotification(lang, title, subj1, d).tag == MakeNotification(lang, title, subj2, d).tag
  {
    var k1 := NotificationTag(title, s1, d);
    var k2 := NotificationTag(title, s2, d);
    var m := |title| + 1;
    assert k1[m..m + |s1|] == s1;
    assert k2[m..m + |s2|] == s2;
  }
}

=== FILE: scheduler.dfy ===
/** The daily reminder check (`checkAndSendNotificationsSW`): which exams are
    due a reminder today, which reminders the day's ledger already records,
    and the ledger the check leaves behind. Days are whole-day numbers
    aligned to midnight. */
module Scheduler {
  import opened Wrappers
  import opened Notify

  /** `Notification.permission` */
  datatype Permission = Granted | Denied | Default

  /** An exam as the page sends it; `start` is the date string as given. */
  datatype Exam = Exam(title: string, subject: string, start: string)

  /** The stored record of reminders already sent on `date`. */
  datatype Ledger = Ledger(date: int, exams: map<string, bool>)

  /** One reminder the check decided to send: the exam and its day offset. */
  datatype Fired = Fired(exam: Exam, diff: int)

  /** The day offsets at which a reminder fires. */
  const AlertDays: set<int> := {7, 5, 3, 1, 0}

  /** The ledger key of a reminder: `getNotificationTag(exam, diff)`. */
  function Key(f: Fired): (k: string)
  {
    NotificationTag(f.exam.title, f.exam.start, f.diff)
  }

  /** The ledger's truthiness test `currentSentExams[key]`: a key counts as
      sent only when present and true. */
  predicate Sent(ledger: map<string, bool>, key: string)
  {
    key in ledger && ledger[key]
  }

  function FiredKeys(fired: seq<Fired>): (keys: set<string>)
  {
    set i | 0 <= i < |fired| :: Key(fired[i])
  }

  /** The day offset of an exam when it is one of the alert days. `dayOf`
      gives the midnight-aligned day of a start string, None when the string
      is not a date (a NaN offset, which no comparison accepts). */
  function QualifyingDiff(e: Exam, today: int, dayOf: string -> Option<int>): (q: Option<int>)
  {
    match dayOf(e.start)
    case None => None
    case Some(day) => if day - today in AlertDays && day - today >= 0 then Some(day - today) else None
  }

  /** The reminders one pass over `exams` sends and the in-memory ledger
      after it. */
  datatype Pass = Pass(fired: seq<Fired>, sent: map<string, bool>)

  /** The loop of the check: an exam fires when its offset qualifies and its
      key is not yet sent, and firing marks the key sent before the next exam
      is looked at. */
  function Evaluate(exams: seq<Exam>, sent: map<string, bool>, today: int, dayOf: string -> Option<int>): (p: Pass)
    decreases |exams|
  {
    if |exams| == 0 then Pass([], sent)
    else
      var e := exams[0];
      var q := QualifyingDiff(e, today, dayOf);
      if q.Some? && !Sent(sent, Key(Fired(e, q.value))) then
        var f := Fired(e, q.value);
        var rest := Evaluate(exams[1..], sent[Key(f) := true], today, dayOf);
        Pass([f] + rest.fired, rest.sent)
      else
        Evaluate(exams[1..], sent, today, dayOf)
  }

  lemma FiredKeysCons(f: Fired, rest: seq<Fired>)
    ensures FiredKeys([f] + rest) == {Key(f)} + FiredKeys(rest)
  {
    var all := [f] + rest;
    forall k | k in FiredKeys(rest)
      ensures k in FiredKeys(all)
    {
      var i :| 0 <= i < |rest| && Key(rest[i]) == k;
      assert all[i + 1] == rest[i];
    }
    assert all[0] == f;
  }

  /** Every reminder in `p` comes from a listed exam at a qualifying offset
      whose key `sent` did not record as sent. */
  ghost predicate FiresOnlyDue(p: Pass, exams: seq<Exam>, sent: map<string, bool>, today: int, dayOf: string -> Option<int>)
  {
    forall i :: 0 <= i < |p.fired| ==>
      && p.fired[i].exam in exams
      && QualifyingDiff(p.fired[i].exam, today, dayOf) == Some(p.fired[i].diff)
      && !Sent(sent, Key(p.fired[i]))
  }

  /** No two reminders in `fired` share a ledger key. */
  ghost predicate DistinctKeys(fired: seq<Fired>)
  {
    forall i, j :: 0 <= i < j < |fired| ==> Key(fired[i]) != Key(fired[j])
  }

  /** `after` is `before` plus exactly the keys of `fired`, all marked true. */
  ghost predicate RecordsExactly(after: map<string, bool>, before: map<string, bool>, fired: seq<Fired>)
  {
    && after.Keys == before.Keys + FiredKeys(fired)
    && (forall k :: k in FiredKeys(fired) ==> after[k])
    && (forall k :: k in before && k !in FiredKeys(fired) ==> after[k] == before[k])
  }

  /** Every exam of `exams` that is due today has its key recorded in `ledger`. */
  ghost predicate CoversDue(ledger: map<string, bool>, exams: seq<Exam>, today: int, dayOf: string -> Option<int>)
  {
    forall e :: e in exams && QualifyingDiff(e, today, dayOf).Some? ==>
      Sent(ledger, Key(Fired(e, QualifyingDiff(e, today, dayOf).value)))
  }

  /** Every reminder a pass sends comes from a listed exam at a qualifying
      offset whose key the ledger did not yet record as sent. */
  lemma {:induction false} EvaluateSound(exams: seq<Exam>, sent: map<string, bool>, today: int, dayOf: string -> Option<int>)
    ensures FiresOnlyDue(Evaluate(exams, sent, today, dayOf), exams, sent, today, dayOf)
    decreases |exams|
  {
    if |exams| > 0 {
      var e := exams[0];
      var q := QualifyingDiff(e, today, dayOf);
      if q.Some? && !Sent(sent, Key(Fired(e, q.value))) {
        var f := Fired(e, q.value);
        var sent' := sent[Key(f) := true];
        EvaluateSound(exams[1..], sent', today, dayOf);
        var rest := Evaluate(exams[1..], sent', today, dayOf);
        assert FiresOnlyDue(rest, exams[1..], sent', today, dayOf);
        var all := [f] + rest.fired;
        forall i | 0 <= i < |all|
          ensures all[i].exam in exams
          ensures QualifyingDiff(all[i].exam, today, dayOf) == Some(all[i].diff)
          ensures !Sent(sent, Key(all[i]))
        {
          if i > 0 {
            assert all[i] == rest.fired[i - 1];
          }
        }
      } else {
        EvaluateSound(exams[1..], sent, today, dayOf);
        var rest := Evaluate(exams[1..], sent, today, dayOf);
        assert FiresOnlyDue(rest, exams[1..], sent, today, dayOf);
      }
    }
  }

  /** Prepending a reminder whose key is already sent in `ledger` to reminders
      whose keys are not keeps the keys distinct. */
  lemma DistinctCons(f: Fired, rest: seq<Fired>, ledger: map<string, bool>)
    requires DistinctKeys(rest)
    requires Sent(ledger, Key(f))
    requires forall i :: 0 <= i < |rest| ==> !Sent(ledger, Key(rest[i]))
    ensures DistinctKeys([f] + rest)
  {

  }

  /** No ledger key fires twice in one pass, even when two exams share it. */
  lemma {:induction false} EvaluateDistinct(exams: seq<Exam>, sent: map<string, bool>, today: int, dayOf: string -> Option<int>)
    ensures DistinctKeys(Evaluate(exams, sent, today, dayOf).fired)
    decreases |exams|
  {
    if |exams| > 0 {
      var e := exams[0];
      var q := QualifyingDiff(e, today, dayOf);
      if q.Some? && !Sent(sent, Key(Fired(e, q.value))) {
        var f := Fired(e, q.value);
        var sent' := sent[Key(f) := true];
        EvaluateDistinct(exams[1..], sent', today, dayOf);
        EvaluateSound(exams[1..], sent', today, dayOf);
        var rest := Evaluate(exams[1..], sent', today, dayOf);
        assert FiresOnlyDue(rest, exams[1..], sent', today, dayOf);
        DistinctCons(f, rest.fired, sent');
      } else {
        EvaluateDistinct(exams[1..], sent, today, dayOf);
      }
    }
  }

  /** A pass adds exactly the fired keys to the ledger, all marked true, and
      leaves every other entry as it was. */
  lemma {:induction false} EvaluateLedger(exams: seq<Exam>, sent: map<string, bool>, today: int, dayOf: string -> Option<int>)
    ensures var p := Evaluate(exams, sent, today, dayOf);
      RecordsExactly(p.sent, sent, p.fired)
    decreases |exams|
  {
    if |exams| > 0 {
      var e := exams[0];
      var q := QualifyingDiff(e, today, dayOf);
      if q.Some? && !Sent(sent, Key(Fired(e, q.value))) {
        var f := Fired(e, q.value);
        var sent' := sent[Key(f) := true];
        EvaluateLedger(exams[1..], sent', today, dayOf);
        var rest := Evaluate(exams[1..], sent', today, dayOf);
        assert RecordsExactly(rest.sent, sent', rest.fired);
        FiredKeysCons(f, rest.fired);
      } else {
        EvaluateLedger(exams[1..], sent, today, dayOf);
      }
    }
  }

  /** After a pass every qualifying exam's key is recorded as sent. */
  lemma {:induction false} EvaluateComplete(exams: seq<Exam>, sent: map<string, bool>, today: int, dayOf: string -> Option<int>)
    ensures CoversDue(Evaluate(exams, sent, today, dayOf).sent, exams, today, dayOf)
    decreases |exams|
  {
    if |exams| > 0 {
      var e := exams[0];
      var q := QualifyingDiff(e, today, dayOf);
      assert forall x :: x in exams ==> x == e || x in exams[1..];
      var sent' := if q.Some? && !Sent(sent, Key(Fired(e, q.value))) then sent[Key(Fired(e, q.value)) := true] else sent;
      EvaluateComplete(exams[1..], sent', today, dayOf);
      EvaluateLedger(exams[1..], sent', today, dayOf);
      var rest := Evaluate(exams[1..], sent', today, dayOf);
      assert CoversDue(rest.sent, exams[1..], today, dayOf);
      assert RecordsExactly(rest.sent, sent', rest.fired);
    }
  }

  /** The notifications shown for the reminders `fired`, in order. */
  function Show(lang: Lang, fired: seq<Fired>): (shown: seq<Notification>)
    ensures |shown| == |fired|
  {
    seq(|fired|, i requires 0 <= i < |fired| =>
      MakeNotification(lang, fired[i].exam.title, fired[i].exam.subject, fired[i].diff))
  }

  /** The ledger the check starts from: the stored one when it is today's,
      otherwise a fresh, empty ledger for today. */
  function StartLedger(stored: Option<Ledger>, today: int): (l: Ledger)
    ensures l.date == today
  {
    if stored.Some? && stored.value.date == today then stored.value else Ledger(today, map[])
  }

  /** What one run of the check leaves behind: the notifications shown, the
      reminders they stand for, and the ledger entry in the cache afterwards
      (None when there is none). */
  datatype Outcome = Outcome(shown: seq<Notification>, fired: seq<Fired>, stored: Option<Ledger>)

  /** `checkAndSendNotificationsSW` with the permission, the current day, the
      stored ledger, the exams and the language as inputs. The ledger is
      written back only from the branch that sends a notification, so a run
      that sends nothing leaves the stored entry as it was. */
  function Check(perm: Permission, today: int, stored: Option<Ledger>, exams: seq<Exam>,
                 dayOf: string -> Option<int>, lang: Lang): (r: Outcome)
    ensures perm != Granted ==> r.shown == [] && r.fired == [] && r.stored == stored
    ensures r.shown == Show(lang, r.fired)
    ensures r.fired == [] ==> r.stored == stored
    ensures r.fired != [] ==> r.stored.Some? && r.stored.value.date == today
  {
    if perm != Granted then Outcome([], [], stored)
    else
      var p := Evaluate(exams, StartLedger(stored, today).exams, today, dayOf);
      Outcome(Show(lang, p.fired), p.fired, if p.fired == [] then stored else Some(Ledger(today, p.sent)))
  }

  /** Each shown notification matches its reminder: the "today" template
      exactly when the offset is 0, the "upcoming" template with the offset
      otherwise, and an OS tag built from the title with an empty start. */
  lemma CheckNotificationShape(perm: Permission, today: int, stored: Option<Ledger>, exams: seq<Exam>,
                               dayOf: string -> Option<int>, lang: Lang)
    ensures var r := Check(perm, today, stored, exams, dayOf, lang);
      forall i :: 0 <= i < |r.shown| ==>
        && r.shown[i].title == r.fired[i].exam.title
        && r.shown[i].body.lang == lang
        && r.shown[i].body.subject == r.fired[i].exam.subject
        && (r.shown[i].body.TodayExam? <==> r.fired[i].diff == 0)
        && (r.shown[i].body.UpcomingExam? ==> r.shown[i].body.days == r.fired[i].diff)
        && r.shown[i].tag == NotificationTag(r.fired[i].exam.title, "", r.fired[i].diff)
  {
  }

  /** A reminder is sent only for a listed exam whose start lies 7, 5, 3, 1
      or 0 days ahead, and only when today's ledger did not already hold its
      key; past exams and other offsets never notify. */
  lemma CheckFiresOnlyDue(perm: Permission, today: int, stored: Option<Ledger>, exams: seq<Exam>,
                          dayOf: string -> Option<int>, lang: Lang)
    ensures var r := Check(perm, today, stored, exams, dayOf, lang);
      forall i :: 0 <= i < |r.fired| ==>
        && r.fired[i].exam in exams
        && r.fired[i].diff in AlertDays
        && dayOf(r.fired[i].exam.start) == Some(today + r.fired[i].diff)
        && !Sent(StartLedger(stored, today).exams, Key(r.fired[i]))
  {
    if perm == Granted {
      EvaluateSound(exams, StartLedger(stored, today).exams, today, dayOf);
    }
  }

  /** Within one run no ledger key is sent twice, so two exams with the same
      title and start produce at most one reminder between them. */
  lemma CheckOncePerKey(perm: Permission, today: int, stored: Option<Ledger>, exams: seq<Exam>,
                        dayOf: string -> Option<int>, lang: Lang)
    ensures var r := Check(perm, today, stored, exams, dayOf, lang);
      forall i, j :: 0 <= i < j < |r.fired| ==>
        !(r.fired[i].exam.title == r.fired[j].exam.title && r.fired[i].exam.start == r.fired[j].exam.start)
  {
    if perm == Granted {
      var start := StartLedger(stored, today).exams;
      EvaluateDistinct(exams, start, today, dayOf);
      EvaluateSound(exams, start, today, dayOf);
    }
  }

  /** After a run that sent something, the stored ledger is dated today and
      holds the keys it already held for today plus exactly the keys just
      sent, those marked true, with every other entry unchanged. */
  lemma CheckRecordsSent(perm: Permission, today: int, stored: Option<Ledger>, exams: seq<Exam>,
                         dayOf: string -> Option<int>, lang: Lang)
    ensures var r := Check(perm, today, stored, exams, dayOf, lang);
      r.fired != [] ==>
        && r.stored.Some?
        && r.stored.value.date == today
        && RecordsExactly(r.stored.value.exams, StartLedger(stored, today).exams, r.fired)
  {
    if perm == Granted {
      EvaluateLedger(exams, StartLedger(stored, today).exams, today, dayOf);
    }
  }

  /** With permission, every listed exam due today whose key today's ledger
      does not hold as sent has that key sent in this run, by the first listed
      exam with that key (a later exam sharing the key is not announced). */
  lemma CheckFiresEveryUnsentDue(today: int, stored: Option<Ledger>, exams: seq<Exam>,
                                 dayOf: string -> Option<int>, lang: Lang, e: Exam)
    requires e in exams && QualifyingDiff(e, today, dayOf).Some?
    requires !Sent(StartLedger(stored, today).exams, Key(Fired(e, QualifyingDiff(e, today, dayOf).value)))
    ensures Key(Fired(e, QualifyingDiff(e, today, dayOf).value)) in FiredKeys(Check(Granted, today, stored, exams, dayOf, lang).fired)
  {
    var start := StartLedger(stored, today).exams;
    EvaluateComplete(exams, start, today, dayOf);
    EvaluateLedger(exams, start, today, dayOf);
  }

  /** A ledger from another day suppresses nothing: the run sends what it
      would send with no ledger stored. */
  lemma CheckNewDay(perm: Permission, today: int, stored: Option<Ledger>, exams: seq<Exam>,
                    dayOf: string -> Option<int>, lang: Lang)
    requires stored.None? || stored.value.date != today
    ensures Check(perm, today, stored, exams, dayOf, lang).fired == Check(perm, today, None, exams, dayOf, lang).fired
  {
  }

  /** On a new day, every listed exam due today has its key sent in the run,
      by the first listed exam with that key. */
  lemma CheckNewDayFiresDue(today: int, stored: Option<Ledger>, exams: seq<Exam>,
                            dayOf: string -> Option<int>, lang: Lang, e: Exam)
    requires stored.None? || stored.value.date != today
    requires e in exams && QualifyingDiff(e, today, dayOf).Some?
    ensures Key(Fired(e, QualifyingDiff(e, today, dayOf).value)) in FiredKeys(Check(Granted, today, stored, exams, dayOf, lang).fired)
  {
    CheckFiresEveryUnsentDue(today, stored, exams, dayOf, lang, e);
  }

  /** Running the check a second time on the same day with the same exams
      sends nothing and leaves the stored ledger as the first run left it. */
  lemma CheckIdempotent(perm: Permission, today: int, stored: Option<Ledger>, exams: seq<Exam>,
                        dayOf: string -> Option<int>, lang: Lang)
    ensures var r1 := Check(perm, today, stored, exams, dayOf, lang);
      var r2 := Check(perm, today, r1.stored, exams, dayOf, lang);
      r2.shown == [] && r2.stored == r1.stored
  {
    if perm == Granted {
      var r1 := Check(perm, today, stored, exams, dayOf, lang);
      var start1 := StartLedger(stored, today).exams;
      var p1 := Evaluate(exams, start1, today, dayOf);
      EvaluateComplete(exams, start1, today, dayOf);
      EvaluateLedger(exams, start1, today, dayOf);
      assert CoversDue(p1.sent, exams, today, dayOf);
      var start2 := StartLedger(r1.stored, today).exams;
      if p1.fired == [] {
        assert p1.sent == start1;
        if stored.Some? && stored.value.date == today {
          assert start2 == start1;
        } else {
          assert start1 == map[];
        }
      } else {
        assert start2 == p1.sent;
      }
      assert CoversDue(start2, exams, today, dayOf);
      NothingDueFiresNothing(exams, start2, today, dayOf);
    }
  }

  /** A key sent by one run is not sent again by any later run the same day,
      even when a new schedule brings another exam list or language. */
  lemma KeyOncePerDayAcrossLists(perm: Permission, perm2: Permission, today: int, stored: Option<Ledger>,
                                 exams1: seq<Exam>, exams2: seq<Exam>, dayOf: string -> Option<int>,
                                 lang: Lang, lang2: Lang)
    ensures var r1 := Check(perm, today, stored, exams1, dayOf, lang);
      FiredKeys(r1.fired) !! FiredKeys(Check(perm2, today, r1.stored, exams2, dayOf, lang2).fired)
  {
    var r1 := Check(perm, today, stored, exams1, dayOf, lang);
    var r2 := Check(perm2, today, r1.stored, exams2, dayOf, lang2);
    CheckRecordsSent(perm, today, stored, exams1, dayOf, lang);
    CheckFiresOnlyDue(perm2, today, r1.stored, exams2, dayOf, lang2);
    forall k | k in FiredKeys(r1.fired)
      ensures k !in FiredKeys(r2.fired)
    {
      assert StartLedger(r1.stored, today).exams == r1.stored.value.exams;
    }
  }

  /** A key today's ledger holds as sent stays held after any run that day. */
  lemma CheckLedgerGrows(perm: Permission, today: int, stored: Option<Ledger>, exams: seq<Exam>,
                         dayOf: string -> Option<int>, lang: Lang, k: string)
    requires Sent(StartLedger(stored, today).exams, k)
    ensures Sent(StartLedger(Check(perm, today, stored, exams, dayOf, lang).stored, today).exams, k)
  {
    CheckRecordsSent(perm, today, stored, exams, dayOf, lang);
  }

  /** When the ledger already covers every due exam, a pass sends nothing. */
  lemma NothingDueFiresNothing(exams: seq<Exam>, sent: map<string, bool>, today: int, dayOf: string -> Option<int>)
    requires CoversDue(sent, exams, today, dayOf)
    ensures Evaluate(exams, sent, today, dayOf).fired == []
  {

  }

  /** An exam due `n` days ahead whose key today's ledger does not yet hold
      is announced exactly once, however often the check runs that day. */
  lemma DueExamNotifiedOncePerDay(today: int, stored: Option<Ledger>, e: Exam, n: int,
                                  dayOf: string -> Option<int>, lang: Lang)
    requires n in AlertDays
    requires dayOf(e.start) == Some(today + n)
    requires !Sent(StartLedger(stored, today).exams, NotificationTag(e.title, e.start, n))
    ensures var r1 := Check(Granted, today, stored, [e], dayOf, lang);
      var r2 := Check(Granted, today, r1.stored, [e], dayOf, lang);
      var r3 := Check(Granted, today, r2.stored, [e], dayOf, lang);
      && r1.fired == [Fired(e, n)]
      && |r1.shown| == 1
      && r2.shown == []
      && r3.shown == []
  {
    var r1 := Check(Granted, today, stored, [e], dayOf, lang);
    var start := StartLedger(stored, today).exams;
    assert QualifyingDiff(e, today, dayOf) == Some(n);
    assert [e][1..] == [];
    assert Key(Fired(e, n)) == NotificationTag(e.title, e.start, n);
    assert Evaluate([e], start, today, dayOf).fired == [Fired(e, n)];
    CheckIdempotent(Granted, today, stored, [e], dayOf, lang);
    var r2 := Check(Granted, today, r1.stored, [e], dayOf, lang);
    CheckIdempotent(Granted, today, r1.stored, [e], dayOf, lang);
  }
}

=== FILE: strings.dfy ===
/** String helpers: prefix tests and the decimal rendering of integers used in
    template literals such as `D${diffDays}`. */
module Strings {

  /** `s.startsWith(prefix)` */
  predicate StartsWith(s: string, prefix: string)
  {
    |prefix| <= |s| && s[..|prefix|] == prefix
  }

  predicate IsDigit(c: char)
  {
    '0' <= c <= '9'
  }

  function DigitChar(d: nat): (c: char)
    requires d < 10
    ensures IsDigit(c)
  {
    ('0' as int + d) as char
  }

  function DigitValue(c: char): (d: nat)
    requires IsDigit(c)
  {
    c as int - '0' as int
  }

  /** Decimal rendering of a natural number, most significant digit first,
      with no leading zeros. */
  function NatToString(n: nat): (s: string)
    ensures |s| >= 1
    ensures forall i :: 0 <= i < |s| ==> IsDigit(s[i])
    decreases n
  {
    if n < 10 then [DigitChar(n)] else NatToString(n / 10) + [DigitChar(n % 10)]
  }

  /** Decimal rendering of an integer, as JavaScript's `${n}` writes it. */
  function IntToString(i: int): (s: string)
    ensures |s| >= 1
  {
    if i < 0 then "-" + NatToString(-i) else NatToString(i)
  }

  /** Reads a string of decimal digits back as a number. */
  function ParseNat(s: string): (n: nat)
    requires forall i :: 0 <= i < |s| ==> IsDigit(s[i])
  {
    if |s| == 0 then 0 else ParseNat(s[..|s| - 1]) * 10 + DigitValue(s[|s| - 1])
  }

  /** Rendering a number in decimal loses nothing. */
  lemma {:induction false} NatToStringRoundTrip(n: nat)
    ensures ParseNat(NatToString(n)) == n
    decreases n
  {
    var s := NatToString(n);
    if n >= 10 {
      NatToStringRoundTrip(n / 10);
      assert s[..|s| - 1] == NatToString(n / 10);
    }
  }

  /** Distinct numbers render as distinct strings. */
  lemma NatToStringInjective(m: nat, n: nat)
    requires NatToString(m) == NatToString(n)
    ensures m == n
  {
    NatToStringRoundTrip(m);
    NatToStringRoundTrip(n);
  }
}

=== FILE: wrappers.dfy ===
/** Optional values, used wherever the worker reads something that may be absent. */
module Wrappers {

  datatype Option<+T> = None | Some(value: T) {

    /** Returns the value held in Some, or a default when None */
    function GetOr(default: T): T
    {
      match this
      case Some(v) => v
      case None => default
    }
  }
}
